=== FILE: README.md ===
# ForkJoinPoolBench in Dafny

This project models `ForkJoinPoolBench`. The bench measures the real time, user CPU time,
system CPU time and allocated bytes of a task that runs on the common
`ForkJoinPool`. It keeps three process-wide `MeasureMap`s (thread to `long` counter), one
per metric. Every worker the pool creates is registered in them by the bench's
`ThreadFactory`, and it stays registered from then on unless it calls `test` itself. The
`finally` of `test0` unregisters whichever thread called it, pool worker or not, and the
factory never registers that worker again. `test0` works in these steps:

- It registers the calling thread.
- It re-bases every counter to the metric's current reading.
- It takes the first `System.nanoTime()` reading and runs the task.
- Whether or not the task throws, it:
  - collapses the allocation map (every counter becomes "reading now minus baseline") and summarises it;
  - takes the second clock reading;
  - collapses and summarises the user-time map, then the cpu-time map.

  Each summary is the `LongSummaryStatistics` of the map's values. The real time thus includes the allocation map's collapse.
- It unregisters the caller.
- If the task returned normally, it hands the four figures to a `StatsListener`.

`DefaultStatsListener` turns the figures into a report:

- the system time is cpu time minus user time;
- times are truncated to milliseconds and split into minutes and seconds;
- byte counts are scaled to B/KB/MB/GB/TB.

`FactorialByCompletableFutureDemo` is one of the workloads. It computes n! as a balanced tree of
futures.

The project has these modules:

- `Longs` (longs.dfy) models Java `long` values, with the two's-complement wrap-around of `+` and `-`.
- `Measure` (measure.dfy) models one map as a value:
  - re-basing and collapsing;
  - the `LongSummaryStatistics` of its values, defined over sets of threads so that it does not depend on the order of the values.
- `Registry` (registry.dfy) models the three maps together, as the `Tables` value:
  - the whole-table operations;
  - the footprint of a task, i.e. the workers the pool admits while it runs and whether it throws;
  - the readings one run takes;
  - the tables and the outcome after one run, or after a sequence of runs.
- `Bench` (bench.dfy) models `MeasureMap` and `ForkJoinPoolBench` as classes whose methods update the maps in place. Each method is proved to produce the state the `Measure` and `Registry` functions describe.
- `Listener` (listener.dfy) models `DefaultStatsListener`: the system time and the time and memory formatting.
- `Factorial` (factorial.dfy) models `FactorialByCompletableFutureDemo`.

The JMX readings are not computed. A `Probe` stands for them: it gives the user-time, cpu-time and allocation reading of each thread during one pass over the maps. The clock readings are inputs too (`Readings`).


## Model

| member | source | states |
|---|---|---|
| `Longs.AddIsWrap` | src/eu/javaspecialists/tjsn/bench/ForkJoinPoolBench.java:98-101 | `long` addition, as `LongSummaryStatistics` sums, is the exact sum taken modulo 2^64 |
| `Longs.SubIsWrap` | src/eu/javaspecialists/tjsn/bench/ForkJoinPoolBench.java:96 | `after - before` on `long`s is the exact difference taken modulo 2^64 |
| `Longs.AddUndoesSub` | src/eu/javaspecialists/tjsn/bench/ForkJoinPoolBench.java:94-96 | `(a - b) + b == a` in `long` arithmetic, even when the subtraction overflows |
| `Measure.Rebased` | src/eu/javaspecialists/tjsn/bench/ForkJoinPoolBench.java:128-132 | one map after `resetCounter`: the same threads, each set to the metric's current reading |
| `Measure.Collapsed` | src/eu/javaspecialists/tjsn/bench/ForkJoinPoolBench.java:93-97 | one map after the collapse in `getStats`: the same threads, each set to `after - before` in `long` arithmetic |
| `Measure.RebasedThenCollapsedIsZero` | src/eu/javaspecialists/tjsn/bench/ForkJoinPoolBench.java:93-97 | collapsing a re-based map against the readings it was re-based to keeps its threads and gives 0 for every one |
| `Measure.CollapsedRecoversReading` | src/eu/javaspecialists/tjsn/bench/ForkJoinPoolBench.java:93-97 | a collapsed entry plus the baseline it replaced is the reading at collapse: the collapse loses nothing, despite any overflow |
| `Measure.SumOverRemove` | src/eu/javaspecialists/tjsn/bench/ForkJoinPoolBench.java:98-101 | the sum over a set of threads is any one thread's counter plus the sum over the others, so the sum does not depend on the order of the values |
| `Measure.MinOverIsLeast` | src/eu/javaspecialists/tjsn/bench/ForkJoinPoolBench.java:98-101 | the minimum over a non-empty set of threads is at most every counter of the set and is held by one of them |
| `Measure.MaxOverIsGreatest` | src/eu/javaspecialists/tjsn/bench/ForkJoinPoolBench.java:98-101 | the maximum over a non-empty set of threads is at least every counter of the set and is held by one of them |
| `Measure.SummaryDescribesValues` | src/eu/javaspecialists/tjsn/bench/ForkJoinPoolBench.java:98-101 | the statistics of a map hold the number of threads, the sum of the values modulo 2^64, and a min and max that bound every value and that some thread attains. An empty map has count 0, sum 0, min `Long.MAX_VALUE` and max `Long.MIN_VALUE` |
| `Measure.Accept` | src/eu/javaspecialists/tjsn/bench/ForkJoinPoolBench.java:98-101 | `LongSummaryStatistics.accept`: the count grows by one, the sum is the exact sum modulo 2^64, and min and max are the least and greatest of the old bound and the new value |
| `Measure.AcceptStep` | src/eu/javaspecialists/tjsn/bench/ForkJoinPoolBench.java:98-101 | `accept`ing one more counter turns the statistics of a set of threads into the statistics of that set plus its thread |
| `Bench.SummaryStatistics` | src/eu/javaspecialists/tjsn/bench/ForkJoinPoolBench.java:98-101 | accepting the values one at a time, in any order, yields the order-independent statistics of the map |
| `Registry.WithThread` | src/eu/javaspecialists/tjsn/bench/ForkJoinPoolBench.java:104-108 | the three maps after `addCounters(t)`: `t` is in every map, with the probe's current reading |
| `Registry.WithoutThread` | src/eu/javaspecialists/tjsn/bench/ForkJoinPoolBench.java:110-114 | the three maps after `removeCounters(t)`: `t` is in none of them, and the key set loses `t` |
| `Registry.RebasedAll` | src/eu/javaspecialists/tjsn/bench/ForkJoinPoolBench.java:122-126 | the three maps after `resetAllCounters`: each keeps its threads and is re-based |
| `Registry.CollapsedAll` | src/eu/javaspecialists/tjsn/bench/ForkJoinPoolBench.java:78-81 | the three maps after the three `getStats` calls: each keeps its threads and is collapsed |
| `Registry.WithThreadUpdatesOnlyThread` | src/eu/javaspecialists/tjsn/bench/ForkJoinPoolBench.java:104-108 | after `addCounters(t)` every map holds `t` with its current reading, and every other entry is unchanged |
| `Registry.WithoutThreadRemovesOnlyThread` | src/eu/javaspecialists/tjsn/bench/ForkJoinPoolBench.java:110-114 | after `removeCounters(t)` no map holds `t`, and every other entry is unchanged |
| `Registry.RemoveUndoesAdd` | src/eu/javaspecialists/tjsn/bench/ForkJoinPoolBench.java:104-114 | `removeCounters(t)` after `addCounters(t)` leaves the other threads' entries as they were, and restores the maps exactly when `t` was not registered before, so a registered `t` loses its old entries |
| `Registry.AddKeepsSameKeys` | src/eu/javaspecialists/tjsn/bench/ForkJoinPoolBench.java:104-108 | `addCounters(t)` keeps the three maps on one key set, which gains `t` |
| `Registry.RemoveKeepsSameKeys` | src/eu/javaspecialists/tjsn/bench/ForkJoinPoolBench.java:110-114 | `removeCounters(t)` keeps the three maps on one key set, which loses `t` |
| `Registry.RebaseKeepsSameKeys` | src/eu/javaspecialists/tjsn/bench/ForkJoinPoolBench.java:122-132 | `resetAllCounters` keeps the three maps on their one key set, unchanged |
| `Registry.CollapseKeepsSameKeys` | src/eu/javaspecialists/tjsn/bench/ForkJoinPoolBench.java:78-81 | the three `getStats` collapses keep the three maps on their one key set, unchanged |
| `Registry.AdmittedStep` | src/eu/javaspecialists/tjsn/bench/ForkJoinPoolBench.java:25-31 | admitting one more worker is `addCounters` for it |
| `Registry.AdmittedKeepSameKeys` | src/eu/javaspecialists/tjsn/bench/ForkJoinPoolBench.java:25-31 | the factory's admissions keep the three maps on one key set: the threads registered before plus every admitted worker |
| `Registry.AdmittedTableValues` | src/eu/javaspecialists/tjsn/bench/ForkJoinPoolBench.java:25-31 | admissions after a reset add exactly the admitted threads. Each entry holds its thread's latest baseline: the reading at its last admission, or otherwise the reset reading |
| `Registry.MeasuredSteps` | src/eu/javaspecialists/tjsn/bench/ForkJoinPoolBench.java:71-82 | the collapsed maps are the result of `addCounters(caller)`, `resetAllCounters`, the admissions and the three `getStats` collapses, in that order |
| `Registry.MeasuredTableKeys` | src/eu/javaspecialists/tjsn/bench/ForkJoinPoolBench.java:71-82 | a collapsed map holds the threads registered before the run, the caller and the admitted workers |
| `Registry.MeasuredTableValues` | src/eu/javaspecialists/tjsn/bench/ForkJoinPoolBench.java:71-82 | every collapsed entry is the reading at collapse minus the thread's baseline: its admission reading for a worker created during the run, its reset reading otherwise |
| `Registry.RunStats` | src/eu/javaspecialists/tjsn/bench/ForkJoinPoolBench.java:78-81 | after a run that completed, each of the three statistics is the summary of its metric's collapsed map |
| `Registry.AfterRunTable` | src/eu/javaspecialists/tjsn/bench/ForkJoinPoolBench.java:83-85 | after `test0`, each map is its collapsed map without the caller |
| `Registry.RunKeys` | src/eu/javaspecialists/tjsn/bench/ForkJoinPoolBench.java:67-88 | a run keeps the three maps in step. Afterwards they hold the threads registered before plus the admitted workers, minus the caller |
| `Registry.RunUnregistersCaller` | src/eu/javaspecialists/tjsn/bench/ForkJoinPoolBench.java:83-85 | whether the task returns or throws, the caller is in none of the maps afterwards |
| `Registry.RunReportsOnlyOnCompletion` | src/eu/javaspecialists/tjsn/bench/ForkJoinPoolBench.java:74-87 | the listener is called exactly when the task does not throw, and it receives the second clock reading minus the first, modulo 2^64 |
| `Registry.RunDeltas` | src/eu/javaspecialists/tjsn/bench/ForkJoinPoolBench.java:75-82 | every entry left after a run, whether it completed or threw, is that thread's consumption since its baseline |
| `Registry.RunCountsCaller` | src/eu/javaspecialists/tjsn/bench/ForkJoinPoolBench.java:71-81 | each reported count is the number of threads registered before, plus the admitted workers and the caller: the statistics are taken before the caller is removed |
| `Registry.MeasuredSummaryCount` | src/eu/javaspecialists/tjsn/bench/ForkJoinPoolBench.java:98-101 | the summary of a collapsed map counts the registered threads, the caller and the admitted workers |
| `Registry.IdleRunReportsZero` | src/eu/javaspecialists/tjsn/bench/ForkJoinPoolBench.java:73-81 | a run that creates no worker and whose readings do not move between the reset and the collapse reports a sum of 0 for every metric |
| `Registry.WorkersPersistCallersDoNot` | src/eu/javaspecialists/tjsn/bench/ForkJoinPoolBench.java:16-31 | over any sequence of runs, a registered pool worker stays registered as long as it never calls `test`, the three maps stay in step, and the caller of the latest run is unregistered |
| `Bench.MeasureMap.constructor` | src/eu/javaspecialists/tjsn/bench/ForkJoinPoolBench.java:45-46 | a new map is empty |
| `Bench.ForkJoinPoolBench.constructor` | src/eu/javaspecialists/tjsn/bench/ForkJoinPoolBench.java:48-60 | three fresh, distinct, empty maps, so the invariant holds |
| `Bench.ForkJoinPoolBench.Add` | src/eu/javaspecialists/tjsn/bench/ForkJoinPoolBench.java:116-120 | `put(thread, extract(thread))`, with every other entry unchanged |
| `Bench.ForkJoinPoolBench.AddCounters` | src/eu/javaspecialists/tjsn/bench/ForkJoinPoolBench.java:104-108 | the maps become `WithThread` of the old maps. The invariant is kept and the key set gains `thread` |
| `Bench.ForkJoinPoolBench.RemoveCounters` | src/eu/javaspecialists/tjsn/bench/ForkJoinPoolBench.java:110-114 | the maps become `WithoutThread` of the old maps. The invariant is kept and the key set loses `thread` |
| `Bench.ForkJoinPoolBench.ResetCounter` | src/eu/javaspecialists/tjsn/bench/ForkJoinPoolBench.java:128-132 | the entry-by-entry loop sets every counter to the current reading, keeping the key set: `Rebased` of the old map |
| `Bench.ForkJoinPoolBench.ResetAllCounters` | src/eu/javaspecialists/tjsn/bench/ForkJoinPoolBench.java:122-126 | all three maps are re-based and the invariant is kept |
| `Bench.ForkJoinPoolBench.GetStats` | src/eu/javaspecialists/tjsn/bench/ForkJoinPoolBench.java:90-102 | the loop leaves `Collapsed` of the old map (`after - before` per entry), and the result is the statistics of the new values |
| `Bench.ForkJoinPoolBench.NewThread` | src/eu/javaspecialists/tjsn/bench/ForkJoinPoolBench.java:25-31 | returns the worker made by the default factory, after registering it with its readings at creation |
| `Bench.ForkJoinPoolBench.RunTask` | src/eu/javaspecialists/tjsn/bench/ForkJoinPoolBench.java:76 | while the task runs, the factory admits its workers in order (`Admitted`), and the task's throwing is reported |
| `Bench.ForkJoinPoolBench.Test0` | src/eu/javaspecialists/tjsn/bench/ForkJoinPoolBench.java:67-88 | the maps end as `AfterRun` and the invariant is kept. What reaches the listener is `RunOutcome`, and the listener prints one report on completion and nothing when the task threw |
| `Listener.SysTime` | src/eu/javaspecialists/tjsn/bench/DefaultStatsListener.java:19-20 | `cpuTimeStats.getSum() - userTime` in `long` arithmetic: the exact difference of the two sums modulo 2^64 |
| `Listener.Result` | src/eu/javaspecialists/tjsn/bench/DefaultStatsListener.java:15-28 | the report printed under the listener's description: real and user time formatted, the system time formatted as cpu sum minus user sum modulo 2^64, and the allocation sum formatted as memory |
| `Listener.Heard` | src/eu/javaspecialists/tjsn/bench/ForkJoinPoolBench.java:87 | the listener is called once, with the run's figures, when the task returned normally, and not at all when it threw |
| `Listener.SysTimeIsSumOfDifferences` | src/eu/javaspecialists/tjsn/bench/DefaultStatsListener.java:19-20 | for two maps over the same threads, `cpu sum - user sum` is the sum over the threads of cpu minus user, modulo 2^64 |
| `Listener.SysTimeNonNegative` | src/eu/javaspecialists/tjsn/bench/DefaultStatsListener.java:19-20 | when no thread shows more user than cpu time and the total fits a `long`, the system time is not negative |
| `Listener.MeasuredDifference` | src/eu/javaspecialists/tjsn/bench/DefaultStatsListener.java:19-20 | the collapsed user-time and cpu-time maps hold the same threads, and their per-thread difference is the run's cpu minus user consumption |
| `Listener.RunSysTime` | src/eu/javaspecialists/tjsn/bench/DefaultStatsListener.java:19-20 | the system time of a completed run is the sum, over every measured thread, of the cpu time minus the user time the run consumed on it, modulo 2^64 |
| `Listener.MeasuredSysTime` | src/eu/javaspecialists/tjsn/bench/DefaultStatsListener.java:19-20 | `RunSysTime`, stated for the collapsed maps themselves |
| `Listener.FormatTime` | src/eu/javaspecialists/tjsn/bench/DefaultStatsListener.java:52-58 | whole minutes and 0..59999 leftover milliseconds, so the printed seconds lie in [0, 60). Together they are the clamped nanoseconds truncated to milliseconds |
| `Listener.FormatTimeClampsNegative` | src/eu/javaspecialists/tjsn/bench/DefaultStatsListener.java:53 | every negative time shows as 0 minutes and 0 milliseconds |
| `Listener.FormatTimeMonotonic` | src/eu/javaspecialists/tjsn/bench/DefaultStatsListener.java:52-58 | a longer time never shows as fewer milliseconds |
| `Listener.FormatMemory` | src/eu/javaspecialists/tjsn/bench/DefaultStatsListener.java:30-50 | value times unit is the byte count. The unit is B exactly below 1024 bytes. Otherwise the value is at least 1, and below 1024 unless the unit is TB |
| `Listener.FormatMemoryUnitMonotonic` | src/eu/javaspecialists/tjsn/bench/DefaultStatsListener.java:30-50 | a larger byte count never shows in a smaller unit |
| `Listener.RunReport` | src/eu/javaspecialists/tjsn/bench/DefaultStatsListener.java:15-28 | after a completed run the listener prints one report, under its description. Its user time is the formatted total user time the run consumed over every measured thread |
| `Factorial.Apply` | src/eu/javaspecialists/tjsn/bench/FactorialByCompletableFutureDemo.java:8-13 | `SERIAL`/`PARALLEL` applied to two futures: a combined future whose value is the product of theirs, asynchronous exactly for `PARALLEL` |
| `Factorial.Mid` | src/eu/javaspecialists/tjsn/bench/FactorialByCompletableFutureDemo.java:28 | `(from + to) >>> 1` on `int`s: always a non-negative `int`, whatever the sum's overflow |
| `Factorial.FactorialFrom` | src/eu/javaspecialists/tjsn/bench/FactorialByCompletableFutureDemo.java:20-31 | `factorial(from, to, op)`: a completed leaf exactly when `from == to` (`Factor(from)`, 0 counting as 1), otherwise `op` on the halves split at `Mid`; requires `0 <= from <= to <= Integer.MAX_VALUE` |
| `Factorial.MidIsMidpoint` | src/eu/javaspecialists/tjsn/bench/FactorialByCompletableFutureDemo.java:28 | for non-negative `int`s, `(from + to) >>> 1` is the exact midpoint rounded down, and it lies in `[from, to)` when `from < to` |
| `Factorial.RangeProductSplit` | src/eu/javaspecialists/tjsn/bench/FactorialByCompletableFutureDemo.java:28-30 | the product of a range is the product of its two halves, split at any point |
| `Factorial.JoinIsRangeProduct` | src/eu/javaspecialists/tjsn/bench/FactorialByCompletableFutureDemo.java:20-31 | the future for `(from, to)` joins to the product of its factors, 0 counting as 1, with either combiner |
| `Factorial.RangeProductFromZero` | src/eu/javaspecialists/tjsn/bench/FactorialByCompletableFutureDemo.java:23-26 | the factors from 0 to n multiply to n! |
| `Factorial.FactorialOf` | src/eu/javaspecialists/tjsn/bench/FactorialByCompletableFutureDemo.java:15-18 | `factorial(n, op)` is n! for every `0 <= n <= Integer.MAX_VALUE`, with either combiner |
| `Factorial.SerialAgreesWithParallel` | src/eu/javaspecialists/tjsn/bench/FactorialByCompletableFutureDemo.java:8-13 | `SERIAL` and `PARALLEL` compute the same result |
| `Factorial.FactorialShape` | src/eu/javaspecialists/tjsn/bench/FactorialByCompletableFutureDemo.java:20-31 | the future tree has one completed leaf per number of the range, and every combination in it is asynchronous exactly for `PARALLEL` |

## Left out

- **JMX readings:** `ThreadMXBean`, `getThreadUserTime`, `getThreadCpuTime`, `getThreadAllocatedBytes` and the static initializer that looks them up (ForkJoinPoolBench.java:134-174) become a `Probe` parameter per pass. Failures (`JMException`, an unknown thread) are not modelled, so the extractors are total.
- **Concurrency:**
  - The monitor `TEST_MONITOR`, the thread safety of `ConcurrentHashMap` and the `AtomicLong` cells are not modelled. The maps are plain values, and one run is modelled at a time.
  - Nested runs on one thread are not modelled. `synchronized (TEST_MONITOR)` is re-entrant, so a task that calls `test` on its own thread starts an inner run. That inner run re-bases the outer run's counters and removes the shared caller before the outer collapse. A `Task` here cannot call `test`.
  - Admissions between runs are not modelled. The common pool's factory also registers workers when other code grows the pool between two calls of `test`, but `AfterRuns` chains the runs with no admissions in between. Such admissions only add keys.
  - A worker admitted concurrently with a re-base or a collapse is not modelled. In the model, admissions happen strictly between `resetAllCounters` and the first `getStats`, and every entry is read once per pass.
- **Clock readings:** `System.nanoTime()` results are inputs (`Readings.startNanos`, `Readings.endNanos`).
- **The task:** it is modelled only by its footprint on the bench: the workers the pool admits, in order, and whether `run()` throws. The exception itself is not carried; the model only records that nothing reaches the listener.
- **The static `test`:** it only delegates to `test0` on the singleton, so it has no member of its own.
- **The `StatsListener` interface:** it is modelled by the one implementation the project ships, `DefaultStatsListener`.
- **Listener output:** `System.out.println` and `String.format` are not modelled. A report is the `Report` value with the figures it formats (minutes and milliseconds, scaled byte count and unit).
- **Floating point:**
  - `formatMemory`'s `double` arithmetic and the `remainingMs / 1000.0` division are modelled as exact reals.
  - `LongSummaryStatistics.getAverage()` (a `double`) is not part of `Stats`, because nothing in the bench or the listener reads it.
  - The rounding of a `long` above 2^53 to `double`, and of the divisions, is not captured.
- `Listener.FormatMemory`: its input is the byte count as a real, not a `double`, so the unit is chosen on the exact value. For counts above 2^53 bytes, Java may choose on a rounded value.
- **Negative `n` in the factorial demo:** the recursion does not end on ordinary arguments in Java (the unsigned shift produces a huge midpoint). The model requires `0 <= from <= to <= Integer.MAX_VALUE`.
- **`CompletableFuture` scheduling:** the model keeps only the value a future completes with and whether each combination is asynchronous. Which thread runs it is not modelled.
- **Drivers:** the `main` methods, `ArraySortBenchTest` and `FactorialByStreamDemo` are workloads and drivers. They contain no bench logic and are not part of this model.

=== FILE: bench.dfy ===
/**
 * The bench object itself: three `MeasureMap`s that its private methods
 * update in place, the thread factory that registers every worker of the
 * common pool, and `test0`, which measures one task. Each method is proved
 * to leave the maps as the functions of modules Measure and Registry say.
 */
module Bench {
  import opened Longs
  import opened Measure
  import opened Registry
  import opened Listener

  /** A `ConcurrentHashMap<Thread, AtomicLong>`; its `AtomicLong`s are the map's values. */
  class MeasureMap {
    var counters: map<Thread, Long>

    constructor ()
      ensures counters == map[]
    {
      counters := map[];
    }
  }

  /**
   * `LongSummaryStatistics` over the values of a map, accepted one value at
   * a time as `summaryStatistics()` does. The values are visited in no
   * particular order.
   */
  method SummaryStatistics(values: Counters) returns (s: Stats)
    ensures s == Summary(values)
  {
    s := NoValues;
    var todo := values.Keys;
    while todo != {}
      invariant todo <= values.Keys
      invariant s == StatsOver(values, values.Keys - todo)
      decreases todo
    {
      var t :| t in todo;
      AcceptStep(values, values.Keys - todo, t);
      assert values.Keys - todo + {t} == values.Keys - (todo - {t});
      s := Accept(s, values[t]);
      todo := todo - {t};
    }
    assert values.Keys - todo == values.Keys;
  }

  class ForkJoinPoolBench {
    const userTime: MeasureMap
    const cpuTime: MeasureMap
    const allocation: MeasureMap

    /** The three maps are distinct objects and register the same threads. */
    ghost predicate Valid()
      reads userTime, cpuTime, allocation
    {
      userTime != cpuTime && cpuTime != allocation && userTime != allocation
      && SameKeys(Tables())
    }

    /** The contents of the three maps. */
    ghost function Tables(): Tables
      reads userTime, cpuTime, allocation
    {
      Registry.Tables(userTime.counters, cpuTime.counters, allocation.counters)
    }

    constructor ()
      ensures Valid() && Tables() == Registry.Tables(map[], map[], map[])
      ensures fresh(userTime) && fresh(cpuTime) && fresh(allocation)
    {
      userTime := new MeasureMap();
      cpuTime := new MeasureMap();
      allocation := new MeasureMap();
    }

    /** `add`: `m.put(thread, new AtomicLong(extract(thread)))`. */
    method Add(m: MeasureMap, thread: Thread, extract: Extractor)
      modifies m
      ensures m.counters == old(m.counters)[thread := extract(thread)]
    {
      m.counters := m.counters[thread := extract(thread)];
    }

    /** `addCounters`: registers `thread` in all three maps with its current readings. */
    method AddCounters(thread: Thread, p: Probe)
      requires Valid()
      modifies userTime, cpuTime, allocation
      ensures Valid()
      ensures Tables() == WithThread(old(Tables()), thread, p)
      ensures Keys(Tables()) == Keys(old(Tables())) + {thread}
    {
      ghost var before := Tables();
      AddKeepsSameKeys(before, thread, p);
      Add(userTime, thread, p.user);
      Add(cpuTime, thread, p.cpu);
      Add(allocation, thread, p.mem);
    }

    /** `removeCounters`: unregisters `thread` from all three maps. */
    method RemoveCounters(thread: Thread)
      requires Valid()
      modifies userTime, cpuTime, allocation
      ensures Valid()
      ensures Tables() == WithoutThread(old(Tables()), thread)
      ensures Keys(Tables()) == Keys(old(Tables())) - {thread}
    {
      ghost var before := Tables();
      userTime.counters := userTime.counters - {thread};
      cpuTime.counters := cpuTime.counters - {thread};
      allocation.counters := allocation.counters - {thread};
      RemoveKeepsSameKeys(before, thread);
    }

    /** `resetCounter`: every counter of `m` set to the metric's current value, entry by entry. */
    method ResetCounter(m: MeasureMap, extract: Extractor)
      modifies m
      ensures m.counters == Rebased(old(m.counters), extract)
    {
      ghost var before := m.counters;
      var todo := m.counters.Keys;
      while todo != {}
        invariant m.counters.Keys == before.Keys && todo <= before.Keys
        invariant forall t :: t in before && t !in todo ==> m.counters[t] == extract(t)
        decreases todo
      {
        var t :| t in todo;
        m.counters := m.counters[t := extract(t)];
        todo := todo - {t};
      }
    }

    /** `resetAllCounters`: all three maps re-based. */
    method ResetAllCounters(p: Probe)
      requires Valid()
      modifies userTime, cpuTime, allocation
      ensures Valid()
      ensures Tables() == RebasedAll(old(Tables()), p)
    {
      ghost var before := Tables();
      ResetCounter(userTime, p.user);
      ResetCounter(cpuTime, p.cpu);
      ResetCounter(allocation, p.mem);
      RebaseKeepsSameKeys(before, p);
    }

    /**
     * `getStats`: every counter of `m` replaced by `after - before`, entry by
     * entry, then the statistics of the new values.
     */
    method GetStats(m: MeasureMap, extract: Extractor) returns (s: Stats)
      modifies m
      ensures m.counters == Collapsed(old(m.counters), extract)
      ensures s == Summary(m.counters)
    {
      ghost var before := m.counters;
      var todo := m.counters.Keys;
      while todo != {}
        invariant m.counters.Keys == before.Keys && todo <= before.Keys
        invariant forall t :: t in todo ==> m.counters[t] == before[t]
        invariant forall t :: t in before && t !in todo ==> m.counters[t] == Sub(extract(t), before[t])
        decreases todo
      {
        var t :| t in todo;
        var after := extract(t);
        var prior := m.counters[t];
        m.counters := m.counters[t := Sub(after, prior)];
        todo := todo - {t};
      }
      s := SummaryStatistics(m.counters);
    }

    /**
     * `ThreadFactory.newThread`: the worker made by the default factory
     * (`worker`) is registered with its readings at creation, then returned.
     */
    method NewThread(worker: Thread, p: Probe) returns (thread: Thread)
      requires Valid()
      modifies userTime, cpuTime, allocation
      ensures Valid()
      ensures thread == worker
      ensures Tables() == WithThread(old(Tables()), worker, p)
    {
      thread := worker;
      AddCounters(thread, p);
    }

    /**
     * `task.run()`, as far as the bench can see it: the common pool asks the
     * factory for the task's workers in order, then the task returns or throws.
     */
    method RunTask(task: Task) returns (threw: bool)
      requires Valid()
      modifies userTime, cpuTime, allocation
      ensures Valid()
      ensures threw == task.throws
      ensures Tables() == Admitted(old(Tables()), task.admissions)
    {
      var ws := task.admissions;
      var i := 0;
      while i < |ws|
        invariant 0 <= i <= |ws|
        invariant Valid()
        invariant Tables() == Admitted(old(Tables()), ws[..i])
      {
        var _ := NewThread(ws[i].thread, ws[i].probe);
        assert ws[..i + 1][..i] == ws[..i];
        AdmittedStep(old(Tables()), ws[..i + 1]);
        i := i + 1;
      }
      assert ws[..i] == ws;
      threw := task.throws;
    }

    /**
     * `test0` (reached through the static `test`): registers the caller,
     * re-bases every counter, runs the task between two clock readings,
     * collapses the three maps (also when the task throws), unregisters the
     * caller, and calls `listener.result` only when the task returned
     * normally. `outcome` is what reaches the listener, `printed` what the
     * listener prints.
     */
    method Test0(caller: Thread, task: Task, rd: Readings, listener: DefaultStatsListener)
      returns (outcome: Outcome, printed: seq<Report>)
      requires Valid()
      modifies userTime, cpuTime, allocation
      ensures Valid()
      ensures Tables() == AfterRun(old(Tables()), caller, task, rd)
      ensures outcome == RunOutcome(old(Tables()), caller, task, rd)
      ensures printed == Heard(listener, outcome)
    {
      ghost var before := Tables();
      AddCounters(caller, rd.atAdmit);
      ResetAllCounters(rd.atReset);
      var realTime := rd.startNanos;
      var threw := RunTask(task);
      ghost var ran := Tables();
      var memStats := GetStats(allocation, rd.atCollapse.mem);
      realTime := Sub(rd.endNanos, realTime);
      var userStats := GetStats(userTime, rd.atCollapse.user);
      var cpuStats := GetStats(cpuTime, rd.atCollapse.cpu);
      assert Tables() == CollapsedAll(ran, rd.atCollapse);
      MeasuredSteps(before, caller, task, rd);
      CollapseKeepsSameKeys(ran, rd.atCollapse);
      RemoveCounters(caller);
      if threw {
        outcome := Threw;
      } else {
        outcome := Reported(realTime, userStats, cpuStats, memStats);
      }
      printed := Heard(listener, outcome);
    }
  }
}

=== FILE: factorial.dfy ===
/**
 * `FactorialByCompletableFutureDemo`: n! as a balanced tree of
 * `CompletableFuture`s, each leaf completed with one factor and each inner
 * node combining the products of its two halves, either on the completing
 * thread (`thenCombine`) or in the common pool (`thenCombineAsync`).
 */
module Factorial {

  const INT_MAX: int := 0x7fff_ffff
  /** 2^32: the number of distinct `int` values. */
  const INT_MODULUS: int := 0x1_0000_0000

  /** The two combining operators of the demo. */
  datatype Combiner =
    | Serial    // (a, b) -> a.thenCombine(b, BigInteger::multiply)
    | Parallel  // (a, b) -> a.thenCombineAsync(b, BigInteger::multiply)

  /** A future as the demo builds it: completed with a value, or the product of two futures. */
  datatype Future =
    | Completed(value: nat)
    | Combined(left: Future, right: Future, async: bool)

  /** `op.apply(a, b)`. */
  function Apply(op: Combiner, a: Future, b: Future): (r: Future)
    ensures Join(r) == Join(a) * Join(b)
    ensures Leaves(r) == Leaves(a) + Leaves(b)
    ensures r.Combined? && (r.async <==> op == Parallel)
  {
    Combined(a, b, op == Parallel)
  }

  /** `join()`: the value the future completes with. */
  function Join(f: Future): nat
  {
    match f
    case Completed(v) => v
    case Combined(l, r, _) => Join(l) * Join(r)
  }

  /** The number of completed leaves of a future. */
  function Leaves(f: Future): nat
  {
    match f
    case Completed(_) => 1
    case Combined(l, r, _) => Leaves(l) + Leaves(r)
  }

  /** Every combination in `f` runs asynchronously exactly when `async` holds. */
  predicate CombinesAll(f: Future, async: bool)
  {
    match f
    case Completed(_) => true
    case Combined(l, r, a) => a == async && CombinesAll(l, async) && CombinesAll(r, async)
  }

  /**
   * `(from + to) >>> 1` on two `int`s: the sum wraps to 32 bits, and the
   * unsigned shift reads those 32 bits as a non-negative number.
   */
  function Mid(from: int, upTo: int): (r: int)
    ensures 0 <= r <= INT_MAX
  {
    ((from + upTo) % INT_MODULUS) / 2
  }

  /** For non-negative `int`s the unsigned shift never overflows: it is the exact midpoint, rounded down. */
  lemma MidIsMidpoint(from: int, upTo: int)
    requires 0 <= from <= upTo <= INT_MAX
    ensures Mid(from, upTo) == (from + upTo) / 2
    ensures from < upTo ==> from <= Mid(from, upTo) < upTo
  {
  }

  /** The factor a leaf contributes: 0 stands for 1 so that 0! is 1. */
  function Factor(i: nat): nat
  {
    if i == 0 then 1 else i
  }

  /** `factorial(from, to, op)` with `to` as `upTo`: the future of the product of the factors from `from` to `upTo`. */
  function FactorialFrom(from: int, upTo: int, op: Combiner): (r: Future)
    requires 0 <= from <= upTo <= INT_MAX
    ensures r.Completed? <==> from == upTo
    decreases upTo - from
  {
    if from == upTo then Completed(Factor(from))
    else
      var mid := Mid(from, upTo);
      MidIsMidpoint(from, upTo);
      Apply(op, FactorialFrom(from, mid, op), FactorialFrom(mid + 1, upTo, op))
  }

  /** `factorial(n, op)`: `factorial(0, n, op).join()`, which is n! with either combiner. */
  function FactorialOf(n: int, op: Combiner): (r: nat)
    requires 0 <= n <= INT_MAX
    ensures r == Fact(n)
  {
    JoinIsRangeProduct(0, n, op);
    RangeProductFromZero(n);
    Join(FactorialFrom(0, n, op))
  }

  /** The product of the factors from `from` to `upTo`, multiplied in order. */
  function RangeProduct(from: nat, upTo: nat): nat
    requires from <= upTo
    decreases upTo - from
  {
    if from == upTo then Factor(upTo) else RangeProduct(from, upTo - 1) * Factor(upTo)
  }

  /** n!, by its textbook definition. */
  function Fact(n: nat): nat
  {
    if n == 0 then 1 else n * Fact(n - 1)
  }

  /** A range product splits at any point into the product of its two parts. */
  lemma {:induction false} RangeProductSplit(from: nat, mid: nat, upTo: nat)
    requires from <= mid < upTo
    ensures RangeProduct(from, upTo) == RangeProduct(from, mid) * RangeProduct(mid + 1, upTo)
    decreases upTo - mid
  {
    if mid + 1 < upTo {
      RangeProductSplit(from, mid, upTo - 1);
      var left, right, last := RangeProduct(from, mid), RangeProduct(mid + 1, upTo - 1), Factor(upTo);
      assert RangeProduct(from, upTo) == (left * right) * last;
      assert RangeProduct(mid + 1, upTo) == right * last;
      MulAssociative(left, right, last);
    }
  }

  lemma MulAssociative(a: nat, b: nat, c: nat)
    ensures (a * b) * c == a * (b * c)
  {
  }

  /** The future joins to the product of the factors of its range, whatever the combiner. */
  lemma {:induction false} JoinIsRangeProduct(from: int, upTo: int, op: Combiner)
    requires 0 <= from <= upTo <= INT_MAX
    ensures Join(FactorialFrom(from, upTo, op)) == RangeProduct(from, upTo)
    decreases upTo - from
  {
    if from < upTo {
      var mid := Mid(from, upTo);
      MidIsMidpoint(from, upTo);
      JoinIsRangeProduct(from, mid, op);
      JoinIsRangeProduct(mid + 1, upTo, op);
      RangeProductSplit(from, mid, upTo);
    }
  }

  /** The product of the factors from 0 to n is n!. */
  lemma {:induction false} RangeProductFromZero(n: nat)
    ensures RangeProduct(0, n) == Fact(n)
  {
    if n > 0 {
      RangeProductFromZero(n - 1);
    }
  }

  /** `SERIAL` and `PARALLEL` yield the same result. */
  lemma SerialAgreesWithParallel(n: int)
    requires 0 <= n <= INT_MAX
    ensures FactorialOf(n, Serial) == FactorialOf(n, Parallel)
  {
  }

  /**
   * The tree has one completed leaf per number of the range, and every
   * combination in it uses the chosen operator.
   */
  lemma {:induction false} FactorialShape(from: int, upTo: int, op: Combiner)
    requires 0 <= from <= upTo <= INT_MAX
    ensures Leaves(FactorialFrom(from, upTo, op)) == upTo - from + 1
    ensures CombinesAll(FactorialFrom(from, upTo, op), op == Parallel)
    decreases upTo - from
  {
    if from < upTo {
      var mid := Mid(from, upTo);
      MidIsMidpoint(from, upTo);
      FactorialShape(from, mid, op);
      FactorialShape(mid + 1, upTo, op);
    }
  }
}

=== FILE: listener.dfy ===
/**
 * `DefaultStatsListener`: what it derives from one report of the bench —
 * the system time as cpu time minus user time, elapsed times split into
 * minutes and milliseconds, and a byte count scaled to the largest unit
 * that keeps it at one or more. The printing itself is not modelled; the
 * model stops at the values that are formatted.
 */
module Listener {
  import opened Longs
  import opened Measure
  import opened Registry

  /** `sysTime = cpuTimeStats.getSum() - userTime`, in `long` arithmetic. */
  function SysTime(userStats: Stats, cpuStats: Stats): (r: Long)
    ensures r == Wrap(cpuStats.sum - userStats.sum)
  {
    SubIsWrap(cpuStats.sum, userStats.sum);
    Sub(cpuStats.sum, userStats.sum)
  }

  /**
   * For the statistics of two maps over the same threads, the system time
   * is the sum over the threads of cpu time minus user time (modulo 2^64).
   */
  lemma SysTimeIsSumOfDifferences(user: Counters, cpu: Counters, diff: map<Thread, int>)
    requires user.Keys == cpu.Keys == diff.Keys
    requires forall t :: t in diff ==> diff[t] == cpu[t] as int - user[t] as int
    ensures SysTime(Summary(user), Summary(cpu)) == Wrap(ExactSumOver(diff, diff.Keys))
  {
    var ks := diff.Keys;
    SummarySum(user);
    SummarySum(cpu);
    SubIsWrap(Wrap(SumOf(cpu)), Wrap(SumOf(user)));
    WrapSub(SumOf(cpu), SumOf(user));
    SumOverDifference(cpu, user, diff, ks);
  }

  /**
   * When no thread used more user time than cpu time and the total does not
   * overflow a `long`, the system time is not negative.
   */
  lemma SysTimeNonNegative(user: Counters, cpu: Counters, diff: map<Thread, int>)
    requires user.Keys == cpu.Keys == diff.Keys
    requires forall t :: t in diff ==> diff[t] == cpu[t] as int - user[t] as int
    requires forall t :: t in user ==> user[t] <= cpu[t]
    requires ExactSumOver(diff, diff.Keys) <= LONG_MAX
    ensures SysTime(Summary(user), Summary(cpu)) >= 0
  {
    SysTimeIsSumOfDifferences(user, cpu, diff);
    ExactSumOverNonNegative(diff, diff.Keys);
  }

  /** Per thread of `ks`, the cpu time minus the user time a run consumed on it. */
  function RunDiff(task: Task, rd: Readings, ks: set<Thread>): map<Thread, int>
  {
    map t | t in ks :: Consumed(task, rd, Cpu, t) as int - Consumed(task, rd, User, t) as int
  }

  /** The collapsed user-time and cpu-time maps of a run hold the same threads, and `RunDiff` is their difference. */
  lemma MeasuredDifference(user: Counters, cpu: Counters, caller: Thread, task: Task, rd: Readings)
    requires user.Keys == cpu.Keys
    ensures var ks := user.Keys + {caller} + AdmittedThreads(task.admissions);
      var mu, mc := MeasuredTable(user, caller, task, rd, User), MeasuredTable(cpu, caller, task, rd, Cpu);
      && mu.Keys == ks && mc.Keys == ks
      && forall t :: t in ks ==> RunDiff(task, rd, ks)[t] == mc[t] as int - mu[t] as int
  {
    MeasuredTableKeys(user, caller, task, rd, User);
    MeasuredTableKeys(cpu, caller, task, rd, Cpu);
    MeasuredTableValues(user, caller, task, rd, User);
    MeasuredTableValues(cpu, caller, task, rd, Cpu);
  }

  /**
   * The system time a run reports is the sum over every thread it measured
   * of the cpu time minus the user time the run consumed on it.
   */
  lemma RunSysTime(tb: Tables, caller: Thread, task: Task, rd: Readings)
    requires SameKeys(tb) && !task.throws
    ensures var o := RunOutcome(tb, caller, task, rd);
      var ks := Keys(tb) + {caller} + AdmittedThreads(task.admissions);
      SysTime(o.userStats, o.cpuStats) == Wrap(ExactSumOver(RunDiff(task, rd, ks), ks))
  {
    RunStats(tb, caller, task, rd, User);
    RunStats(tb, caller, task, rd, Cpu);
    MeasuredSysTime(tb.user, tb.cpu, caller, task, rd);
  }

  /** `RunSysTime` for the collapsed user-time and cpu-time maps themselves. */
  lemma MeasuredSysTime(user: Counters, cpu: Counters, caller: Thread, task: Task, rd: Readings)
    requires user.Keys == cpu.Keys
    ensures var ks := user.Keys + {caller} + AdmittedThreads(task.admissions);
      SysTime(Summary(MeasuredTable(user, caller, task, rd, User)), Summary(MeasuredTable(cpu, caller, task, rd, Cpu)))
      == Wrap(ExactSumOver(RunDiff(task, rd, ks), ks))
  {
    var ks := user.Keys + {caller} + AdmittedThreads(task.admissions);
    MeasuredDifference(user, cpu, caller, task, rd);
    SysTimeIsSumOfDifferences(MeasuredTable(user, caller, task, rd, User), MeasuredTable(cpu, caller, task, rd, Cpu),
                              RunDiff(task, rd, ks));
  }

  /** An elapsed time as `formatTime` prints it: whole minutes, then the remaining milliseconds. */
  datatype Elapsed = Elapsed(minutes: int, millis: int)

  /** The whole milliseconds an `Elapsed` stands for. */
  function TotalMillis(e: Elapsed): int
  {
    e.minutes * 60_000 + e.millis
  }

  /** The seconds part as printed with `%.3f`: the remaining milliseconds over 1000. */
  function Seconds(e: Elapsed): real
  {
    e.millis as real / 1000.0
  }

  /**
   * `formatTime`: a negative time counts as zero; the nanoseconds are
   * truncated to milliseconds (`TimeUnit.NANOSECONDS.toMillis`), then split
   * into minutes and the milliseconds left over.
   */
  function FormatTime(nanos: Long): (r: Elapsed)
    ensures r.minutes >= 0 && 0 <= r.millis < 60_000
    ensures 0.0 <= Seconds(r) < 60.0
    ensures TotalMillis(r) * 1_000_000 <= (if nanos < 0 then 0 else nanos) < (TotalMillis(r) + 1) * 1_000_000
  {
    var clamped := if nanos < 0 then 0 else nanos;
    var timeInMs := clamped / 1_000_000;
    Elapsed(timeInMs / 60_000, timeInMs % 60_000)
  }

  /** Every negative time is shown as zero minutes and zero seconds. */
  lemma FormatTimeClampsNegative(nanos: Long)
    requires nanos < 0
    ensures FormatTime(nanos) == Elapsed(0, 0)
  {
    var r := FormatTime(nanos);
    assert TotalMillis(r) == 0;
  }

  /** A longer time never shows as less time. */
  lemma FormatTimeMonotonic(a: Long, b: Long)
    requires a <= b
    ensures TotalMillis(FormatTime(a)) <= TotalMillis(FormatTime(b))
  {
  }

  /** The units `formatMemory` chooses from. */
  datatype Unit = B | KB | MB | GB | TB

  /** The number of bytes in one unit. */
  function Scale(u: Unit): real
  {
    match u
    case B => 1.0
    case KB => 1024.0
    case MB => 1048576.0
    case GB => 1073741824.0
    case TB => 1099511627776.0
  }

  /** A byte count as `formatMemory` prints it: a value in a unit. */
  datatype Memory = Memory(value: real, unit: Unit)

  /**
   * `formatMemory`: the largest unit (up to terabytes) of which there is at
   * least one whole, with the count expressed in it; anything below 1024
   * bytes, negative counts included, stays in bytes.
   */
  function FormatMemory(bytes: real): (r: Memory)
    ensures r.value * Scale(r.unit) == bytes
    ensures r.unit == B <==> bytes < 1024.0
    ensures r.unit != B ==> 1.0 <= r.value
    ensures r.unit != TB ==> r.value < 1024.0
  {
    if bytes < 1024.0 then Memory(bytes, B)
    else if bytes < 1024.0 * 1024.0 then Memory(bytes / 1024.0, KB)
    else if bytes < 1024.0 * 1024.0 * 1024.0 then Memory(bytes / (1024.0 * 1024.0), MB)
    else if bytes < 1024.0 * 1024.0 * 1024.0 * 1024.0 then Memory(bytes / (1024.0 * 1024.0 * 1024.0), GB)
    else Memory(bytes / (1024.0 * 1024.0 * 1024.0 * 1024.0), TB)
  }

  /** A larger byte count never shows in a smaller unit. */
  lemma FormatMemoryUnitMonotonic(a: real, b: real)
    requires a <= b
    ensures Scale(FormatMemory(a).unit) <= Scale(FormatMemory(b).unit)
  {
  }

  /** A listener, constructed with the description it prints first. */
  datatype DefaultStatsListener = DefaultStatsListener(description: string)

  /** What `result` prints, line by line. */
  datatype Report = Report(description: string, realTime: Elapsed, user: Elapsed, sys: Elapsed, mem: Memory)

  /** `result`: the four figures of one run, formatted. */
  function Result(listener: DefaultStatsListener, realTime: Long,
                  userStats: Stats, cpuStats: Stats, allocationStats: Stats): (r: Report)
    ensures r.description == listener.description
    ensures r.realTime == FormatTime(realTime) && r.user == FormatTime(userStats.sum)
    ensures r.sys == FormatTime(Wrap(cpuStats.sum - userStats.sum))
    ensures r.mem == FormatMemory(allocationStats.sum as real)
  {
    var mem := FormatMemory(allocationStats.sum as real);
    Report(listener.description, FormatTime(realTime), FormatTime(userStats.sum),
           FormatTime(SysTime(userStats, cpuStats)), mem)
  }

  /** What a listener prints after a run: nothing when the task threw. */
  function Heard(listener: DefaultStatsListener, o: Outcome): (r: seq<Report>)
    ensures |r| == (if o.Reported? then 1 else 0)
    ensures o.Reported? ==> r[0].description == listener.description
  {
    match o
    case Threw => []
    case Reported(realTime, userStats, cpuStats, memStats) =>
      [Result(listener, realTime, userStats, cpuStats, memStats)]
  }

  /**
   * After a run that completed, the listener prints one report, and its user
   * time is the total user time the run consumed over every measured thread,
   * truncated to milliseconds.
   */
  lemma RunReport(listener: DefaultStatsListener, tb: Tables, caller: Thread, task: Task, rd: Readings)
    requires !task.throws
    ensures var heard := Heard(listener, RunOutcome(tb, caller, task, rd));
      && |heard| == 1
      && heard[0].description == listener.description
      && heard[0].user == FormatTime(Summary(MeasuredTable(tb.user, caller, task, rd, User)).sum)
  {
    RunReportsOnlyOnCompletion(tb, caller, task, rd);
    RunStats(tb, caller, task, rd, User);
  }
}

=== FILE: longs.dfy ===
/**
 * Java `long` values and the two's-complement wrap-around of `long`
 * addition and subtraction.
 */
module Longs {

  const LONG_MIN: int := -0x8000_0000_0000_0000
  const LONG_MAX: int := 0x7fff_ffff_ffff_ffff
  /** 2^64: the number of distinct `long` values. */
  const MODULUS: int := 0x1_0000_0000_0000_0000

  type Long = x: int | LONG_MIN <= x <= LONG_MAX

  /**
   * The `long` that Java's arithmetic yields for the mathematical result `x`:
   * `x` moved into range by whole multiples of 2^64.
   */
  function Wrap(x: int): (r: Long)
    ensures LONG_MIN <= x <= LONG_MAX ==> r == x
    decreases if x < LONG_MIN then LONG_MIN - x else if x > LONG_MAX then x - LONG_MAX else 0
  {
    if x < LONG_MIN then Wrap(x + MODULUS)
    else if x > LONG_MAX then Wrap(x - MODULUS)
    else x
  }

  /** Java's `a + b` on two `long`s: the exact sum, wrapped at most once. */
  function Add(a: Long, b: Long): Long
  {
    var x := a + b;
    if x < LONG_MIN then x + MODULUS else if x > LONG_MAX then x - MODULUS else x
  }

  /** Java's `a - b` on two `long`s: the exact difference, wrapped at most once. */
  function Sub(a: Long, b: Long): Long
  {
    var x := a - b;
    if x < LONG_MIN then x + MODULUS else if x > LONG_MAX then x - MODULUS else x
  }

  /** The wrapped value differs from the exact one by a multiple of 2^64. */
  lemma {:induction false} WrapCongruent(x: int) returns (k: int)
    ensures Wrap(x) == x + k * MODULUS
    decreases if x < LONG_MIN then LONG_MIN - x else if x > LONG_MAX then x - LONG_MAX else 0
  {
    if x < LONG_MIN {
      var j := WrapCongruent(x + MODULUS);
      k := j + 1;
    } else if x > LONG_MAX {
      var j := WrapCongruent(x - MODULUS);
      k := j - 1;
    } else {
      k := 0;
    }
  }

  /** Two `long`s that differ by a multiple of 2^64 are equal. */
  lemma {:induction false} LongsCongruentAreEqual(a: Long, b: Long, k: int)
    requires a == b + k * MODULUS
    ensures a == b
  {
    assert k >= 1 ==> k * MODULUS >= MODULUS;
    assert k <= -1 ==> k * MODULUS <= -MODULUS;
  }

  /** Results that differ by a multiple of 2^64 wrap to the same `long`. */
  lemma {:induction false} WrapShift(x: int, k: int)
    ensures Wrap(x + k * MODULUS) == Wrap(x)
  {
    var i := WrapCongruent(x);
    var j := WrapCongruent(x + k * MODULUS);
    LongsCongruentAreEqual(Wrap(x + k * MODULUS), Wrap(x), j + k - i);
  }

  /** Wrapping an intermediate result of a sum does not change the final `long`. */
  lemma WrapAddLeft(a: int, b: int)
    ensures Wrap(Wrap(a) + b) == Wrap(a + b)
  {
    var q := WrapCongruent(a);
    WrapShift(a + b, q);
  }

  /** `long` subtraction of wrapped operands is the wrapped exact difference. */
  lemma WrapSub(a: int, b: int)
    ensures Wrap(Wrap(a) - Wrap(b)) == Wrap(a - b)
  {
    var qa := WrapCongruent(a);
    var qb := WrapCongruent(b);
    WrapShift(a - b, qa - qb);
  }

  /** `long` addition is the exact sum taken modulo 2^64. */
  lemma AddIsWrap(a: Long, b: Long)
    ensures Add(a, b) == Wrap(a + b)
  {
    var x := a + b;
    if x < LONG_MIN {
      WrapShift(x, 1);
    } else if x > LONG_MAX {
      WrapShift(x, -1);
    }
  }

  /** `long` subtraction is the exact difference taken modulo 2^64. */
  lemma SubIsWrap(a: Long, b: Long)
    ensures Sub(a, b) == Wrap(a - b)
  {
    var x := a - b;
    if x < LONG_MIN {
      WrapShift(x, 1);
    } else if x > LONG_MAX {
      WrapShift(x, -1);
    }
  }

  /** `long` addition undoes `long` subtraction: `(a - b) + b == a` despite any overflow in between. */
  lemma AddUndoesSub(a: Long, b: Long)
    ensures Add(Sub(a, b), b) == a
  {
    SubIsWrap(a, b);
    AddIsWrap(Sub(a, b), b);
    WrapAddLeft(a - b, b);
  }
}

=== FILE: measure.dfy ===
/**
 * One `MeasureMap` of the bench as a value: a map from thread to a `long`
 * counter, the two whole-map rewrites the bench performs on it (re-basing
 * and collapsing to deltas), and the `LongSummaryStatistics` the bench
 * reads off its values.
 */
module Measure {
  import opened Longs

  /** A Java thread: an opaque identity, used by the bench only as a map key. */
  datatype Thread = Thread(id: nat)

  /** The contents of one MeasureMap. */
  type Counters = map<Thread, Long>

  /**
   * What an extractor function (user time, cpu time or allocated bytes of a
   * thread) returns for each thread during one pass over a map. Every key is
   * visited once per pass, so one function per pass captures every reading.
   */
  type Extractor = Thread -> Long

  /** Every counter set to the metric's current absolute value. */
  function Rebased(m: Counters, extract: Extractor): (r: Counters)
    ensures r.Keys == m.Keys
  {
    map t | t in m :: extract(t)
  }

  /** Every counter replaced by `after - before`, in `long` arithmetic. */
  function Collapsed(m: Counters, extract: Extractor): (r: Counters)
    ensures r.Keys == m.Keys
  {
    map t | t in m :: Sub(extract(t), m[t])
  }

  /** Re-basing and then collapsing against the same readings leaves only zeros. */
  lemma RebasedThenCollapsedIsZero(m: Counters, extract: Extractor)
    ensures Collapsed(Rebased(m, extract), extract).Keys == m.Keys
    ensures forall t :: t in m ==> Collapsed(Rebased(m, extract), extract)[t] == 0
  {
  }

  /**
   * A collapsed counter is the consumption since the baseline: adding the
   * baseline back (in `long` arithmetic) gives the reading it was collapsed
   * against.
   */
  lemma CollapsedRecoversReading(m: Counters, extract: Extractor, t: Thread)
    requires t in m
    ensures t in Collapsed(m, extract)
    ensures Add(Collapsed(m, extract)[t], m[t]) == extract(t)
  {
    AddUndoesSub(extract(t), m[t]);
  }

  /** The exact (unbounded) sum of the counters of the threads in `ks`. */
  ghost function SumOver(m: Counters, ks: set<Thread>): int
    requires ks <= m.Keys
    decreases ks
  {
    if ks == {} then 0 else
    var t :| t in ks; m[t] + SumOver(m, ks - {t})
  }

  ghost function SumOf(m: Counters): int
  {
    SumOver(m, m.Keys)
  }

  /** The sum does not depend on which thread is taken out first. */
  lemma {:induction false} SumOverRemove(m: Counters, ks: set<Thread>, t: Thread)
    requires ks <= m.Keys && t in ks
    ensures SumOver(m, ks) == m[t] + SumOver(m, ks - {t})
    decreases ks
  {
    var u :| u in ks && SumOver(m, ks) == m[u] + SumOver(m, ks - {u});
    if u != t {
      SumOverRemove(m, ks - {u}, t);
      SumOverRemove(m, ks - {t}, u);
      assert ks - {u} - {t} == ks - {t} - {u};
    }
  }

  /** Counters that are all zero sum to zero. */
  lemma {:induction false} SumOverZero(m: Counters, ks: set<Thread>)
    requires ks <= m.Keys
    requires forall t :: t in ks ==> m[t] == 0
    ensures SumOver(m, ks) == 0
    decreases ks
  {
    if ks != {} {
      var t :| t in ks;
      SumOverRemove(m, ks, t);
      SumOverZero(m, ks - {t});
    }
  }

  /** Summing is linear: the difference of two sums is the sum of the differences. */
  lemma {:induction false} SumOverDifference(a: Counters, b: Counters, d: map<Thread, int>, ks: set<Thread>)
    requires ks <= a.Keys && ks <= b.Keys && ks <= d.Keys
    requires forall t :: t in ks ==> d[t] == a[t] as int - b[t] as int
    ensures SumOver(a, ks) - SumOver(b, ks) == ExactSumOver(d, ks)
    decreases ks
  {
    if ks != {} {
      var t :| t in ks && ExactSumOver(d, ks) == d[t] + ExactSumOver(d, ks - {t});
      SumOverRemove(a, ks, t);
      SumOverRemove(b, ks, t);
      SumOverDifference(a, b, d, ks - {t});
    }
  }

  /** The exact sum of unbounded per-thread values (used for differences of counters). */
  ghost function ExactSumOver(d: map<Thread, int>, ks: set<Thread>): int
    requires ks <= d.Keys
    decreases ks
  {
    if ks == {} then 0 else
    var t :| t in ks; d[t] + ExactSumOver(d, ks - {t})
  }

  /** A sum of values that are all non-negative is non-negative. */
  lemma {:induction false} ExactSumOverNonNegative(d: map<Thread, int>, ks: set<Thread>)
    requires ks <= d.Keys
    requires forall t :: t in ks ==> d[t] >= 0
    ensures ExactSumOver(d, ks) >= 0
    decreases ks
  {
    if ks != {} {
      var t :| t in ks && ExactSumOver(d, ks) == d[t] + ExactSumOver(d, ks - {t});
      ExactSumOverNonNegative(d, ks - {t});
    }
  }

  /** The least counter among the threads in `ks`. */
  ghost function MinOver(m: Counters, ks: set<Thread>): Long
    requires ks != {} && ks <= m.Keys
    decreases ks
  {
    var t :| t in ks;
    if ks == {t} then m[t] else
    var rest := MinOver(m, ks - {t});
    if m[t] <= rest then m[t] else rest
  }

  /** The greatest counter among the threads in `ks`. */
  ghost function MaxOver(m: Counters, ks: set<Thread>): Long
    requires ks != {} && ks <= m.Keys
    decreases ks
  {
    var t :| t in ks;
    if ks == {t} then m[t] else
    var rest := MaxOver(m, ks - {t});
    if m[t] >= rest then m[t] else rest
  }

  /** The minimum is one of the counters and no counter is smaller. */
  lemma {:induction false} MinOverIsLeast(m: Counters, ks: set<Thread>)
    requires ks != {} && ks <= m.Keys
    ensures exists t :: t in ks && m[t] == MinOver(m, ks)
    ensures forall t :: t in ks ==> MinOver(m, ks) <= m[t]
    decreases ks
  {
    var t :| t in ks && MinOver(m, ks) == if ks == {t} then m[t] else
      (if m[t] <= MinOver(m, ks - {t}) then m[t] else MinOver(m, ks - {t}));
    if ks != {t} {
      MinOverIsLeast(m, ks - {t});
    }
  }

  /** The maximum is one of the counters and no counter is larger. */
  lemma {:induction false} MaxOverIsGreatest(m: Counters, ks: set<Thread>)
    requires ks != {} && ks <= m.Keys
    ensures exists t :: t in ks && m[t] == MaxOver(m, ks)
    ensures forall t :: t in ks ==> m[t] <= MaxOver(m, ks)
    decreases ks
  {
    var t :| t in ks && MaxOver(m, ks) == if ks == {t} then m[t] else
      (if m[t] >= MaxOver(m, ks - {t}) then m[t] else MaxOver(m, ks - {t}));
    if ks != {t} {
      MaxOverIsGreatest(m, ks - {t});
    }
  }

  /** A value that is one of the counters in `ks` and no greater than any of them is their minimum. */
  lemma MinOverUnique(m: Counters, ks: set<Thread>, x: Long)
    requires ks != {} && ks <= m.Keys
    requires exists t :: t in ks && m[t] == x
    requires forall t :: t in ks ==> x <= m[t]
    ensures x == MinOver(m, ks)
  {
    MinOverIsLeast(m, ks);
  }

  /** A value that is one of the counters in `ks` and no less than any of them is their maximum. */
  lemma MaxOverUnique(m: Counters, ks: set<Thread>, x: Long)
    requires ks != {} && ks <= m.Keys
    requires exists t :: t in ks && m[t] == x
    requires forall t :: t in ks ==> m[t] <= x
    ensures x == MaxOver(m, ks)
  {
    MaxOverIsGreatest(m, ks);
  }

  /**
   * A `LongSummaryStatistics` as the bench reads it: the number of values,
   * their `long` sum, the least and the greatest value.
   */
  datatype Stats = Stats(count: nat, sum: Long, min: Long, max: Long)

  /** The statistics before any value is accepted: Java reports min = Long.MAX_VALUE and max = Long.MIN_VALUE. */
  const NoValues := Stats(0, 0, LONG_MAX, LONG_MIN)

  /** `LongSummaryStatistics.accept`: one more value counted, added, and compared. */
  function Accept(s: Stats, v: Long): (r: Stats)
    ensures r.count == s.count + 1
    ensures r.sum == Wrap(s.sum + v)
    ensures r.min <= v <= r.max && r.min <= s.min && s.max <= r.max
    ensures (r.min == v || r.min == s.min) && (r.max == v || r.max == s.max)
  {
    AddIsWrap(s.sum, v);
    Stats(s.count + 1, Add(s.sum, v), if v < s.min then v else s.min, if v > s.max then v else s.max)
  }

  /** The statistics of the counters of the threads in `ks`, independent of the order they are accepted in. */
  ghost function StatsOver(m: Counters, ks: set<Thread>): Stats
    requires ks <= m.Keys
  {
    if ks == {} then NoValues
    else Stats(|ks|, Wrap(SumOver(m, ks)), MinOver(m, ks), MaxOver(m, ks))
  }

  /** The statistics of the values of a map, as `summaryStatistics()` collects them. */
  ghost function Summary(m: Counters): Stats
  {
    StatsOver(m, m.Keys)
  }

  /** The sum of a summary is the exact sum of the map's values, wrapped to a `long`. */
  lemma SummarySum(m: Counters)
    ensures Summary(m).sum == Wrap(SumOf(m))
  {
  }

  /** The count of a summary is the number of threads in the map. */
  lemma SummaryCount(m: Counters)
    ensures Summary(m).count == |m.Keys|
  {
  }

  /**
   * What a summary says about a map: how many values it has, their sum
   * modulo 2^64, and (for a non-empty map) its least and greatest value,
   * each of which some thread holds; an empty map has the sentinel bounds.
   */
  lemma SummaryDescribesValues(m: Counters)
    ensures Summary(m).count == |m|
    ensures Summary(m).sum == Wrap(SumOf(m))
    ensures m == map[] ==> Summary(m) == NoValues
    ensures forall t :: t in m ==> Summary(m).min <= m[t] <= Summary(m).max
    ensures m != map[] ==> exists t :: t in m && m[t] == Summary(m).min
    ensures m != map[] ==> exists t :: t in m && m[t] == Summary(m).max
  {
    SummaryCount(m);
    SummarySum(m);
    if m.Keys != {} {
      MinOverIsLeast(m, m.Keys);
      MaxOverIsGreatest(m, m.Keys);
    } else {
      assert m == map[];
    }
  }

  /** Accepting one more counter extends the statistics by its thread. */
  lemma AcceptStep(m: Counters, done: set<Thread>, t: Thread)
    requires done <= m.Keys && t in m && t !in done
    ensures Accept(StatsOver(m, done), m[t]) == StatsOver(m, done + {t})
  {
    var s := StatsOver(m, done);
    AcceptSum(m, done, t, s.sum);
    AcceptBounds(m, done, t, s.min, s.max);
  }

  /** Adding one more counter to a running `long` sum keeps it the wrapped exact sum. */
  lemma AcceptSum(m: Counters, done: set<Thread>, t: Thread, sum: Long)
    requires done <= m.Keys && t in m && t !in done
    requires sum == Wrap(SumOver(m, done))
    ensures Add(sum, m[t]) == Wrap(SumOver(m, done + {t}))
  {
    AddIsWrap(sum, m[t]);
    WrapAddLeft(SumOver(m, done), m[t]);
    SumOverRemove(m, done + {t}, t);
    assert done + {t} - {t} == done;
  }

  /** Comparing one more counter with the running bounds gives the bounds over one more thread. */
  lemma AcceptBounds(m: Counters, done: set<Thread>, t: Thread, lo: Long, hi: Long)
    requires done <= m.Keys && t in m && t !in done
    requires done == {} ==> lo == LONG_MAX && hi == LONG_MIN
    requires done != {} ==> lo == MinOver(m, done) && hi == MaxOver(m, done)
    ensures (if m[t] < lo then m[t] else lo) == MinOver(m, done + {t})
    ensures (if m[t] > hi then m[t] else hi) == MaxOver(m, done + {t})
  {
    var v := m[t];
    if done != {} {
      MinOverIsLeast(m, done);
      MaxOverIsGreatest(m, done);
    }
    MinOverUnique(m, done + {t}, if v < lo then v else lo);
    MaxOverUnique(m, done + {t}, if v > hi then v else hi);
  }
}

=== FILE: registry.dfy ===
/**
 * The three counter maps of the bench (user time, cpu time, allocated
 * bytes) as one value, the operations the bench performs on all three
 * together, and the effect of one benchmark run (`test0`) on them.
 * The class in module Bench is proved to follow these definitions.
 */
module Registry {
  import opened Longs
  import opened Measure

  /** What the three extractor functions return for each thread at one moment. */
  datatype Probe = Probe(user: Extractor, cpu: Extractor, mem: Extractor)

  /** The contents of the fields `userTime`, `cpuTime` and `allocation`. */
  datatype Tables = Tables(user: Counters, cpu: Counters, mem: Counters)

  /** The three metrics the bench measures per thread. */
  datatype Dim = User | Cpu | Mem

  /** The map of one metric. */
  function Table(tb: Tables, d: Dim): Counters
  {
    match d
    case User => tb.user
    case Cpu => tb.cpu
    case Mem => tb.mem
  }

  /** The extractor of one metric. */
  function Reading(p: Probe, d: Dim): Extractor
  {
    match d
    case User => p.user
    case Cpu => p.cpu
    case Mem => p.mem
  }

  /** The threads registered in the user-time map. */
  function Keys(tb: Tables): set<Thread>
  {
    tb.user.Keys
  }

  /** The invariant of the bench: a thread is in one map exactly when it is in all three. */
  predicate SameKeys(tb: Tables)
  {
    tb.user.Keys == tb.cpu.Keys && tb.cpu.Keys == tb.mem.Keys
  }

  /** `addCounters(t)`: `t` enters every map with its current absolute metric as baseline. */
  function WithThread(tb: Tables, t: Thread, p: Probe): (r: Tables)
    ensures t in r.user && t in r.cpu && t in r.mem
  {
    Tables(tb.user[t := p.user(t)], tb.cpu[t := p.cpu(t)], tb.mem[t := p.mem(t)])
  }

  /** `removeCounters(t)`: `t` leaves every map. */
  function WithoutThread(tb: Tables, t: Thread): (r: Tables)
    ensures t !in r.user && t !in r.cpu && t !in r.mem
    ensures Keys(r) == Keys(tb) - {t}
  {
    Tables(tb.user - {t}, tb.cpu - {t}, tb.mem - {t})
  }

  /** `resetAllCounters()`: every map re-based to the current absolute metrics. */
  function RebasedAll(tb: Tables, p: Probe): (r: Tables)
    ensures r.user.Keys == tb.user.Keys && r.cpu.Keys == tb.cpu.Keys && r.mem.Keys == tb.mem.Keys
  {
    Tables(Rebased(tb.user, p.user), Rebased(tb.cpu, p.cpu), Rebased(tb.mem, p.mem))
  }

  /** The three `getStats` calls: every map collapsed to this run's deltas. */
  function CollapsedAll(tb: Tables, p: Probe): (r: Tables)
    ensures r.user.Keys == tb.user.Keys && r.cpu.Keys == tb.cpu.Keys && r.mem.Keys == tb.mem.Keys
  {
    Tables(Collapsed(tb.user, p.user), Collapsed(tb.cpu, p.cpu), Collapsed(tb.mem, p.mem))
  }

  /** Under the invariant, every metric's map has the keys of the user-time map. */
  lemma SameKeysTable(tb: Tables, d: Dim)
    requires SameKeys(tb)
    ensures Table(tb, d).Keys == Keys(tb)
  {
  }

  /** After `addCounters(t)`, `t` holds the current reading and every other entry is as before. */
  lemma WithThreadUpdatesOnlyThread(tb: Tables, t: Thread, p: Probe, d: Dim)
    ensures var r := Table(WithThread(tb, t, p), d);
      && t in r && r[t] == Reading(p, d)(t)
      && forall u :: u != t ==> (u in r <==> u in Table(tb, d)) && (u in r ==> r[u] == Table(tb, d)[u])
  {
    match d
    case User =>
    case Cpu =>
    case Mem =>
  }

  /** After `removeCounters(t)`, `t` is gone and every other entry is as before. */
  lemma WithoutThreadRemovesOnlyThread(tb: Tables, t: Thread, d: Dim)
    ensures var r := Table(WithoutThread(tb, t), d);
      && t !in r
      && forall u :: u != t ==> (u in r <==> u in Table(tb, d)) && (u in r ==> r[u] == Table(tb, d)[u])
  {
    match d
    case User =>
    case Cpu =>
    case Mem =>
  }

  /**
   * Removing a thread undoes adding it: what remains is the other threads'
   * entries, untouched. The tables from before come back exactly when the
   * thread was not registered; a registered thread loses its old entries.
   */
  lemma RemoveUndoesAdd(tb: Tables, t: Thread, p: Probe)
    ensures WithoutThread(WithThread(tb, t, p), t) == WithoutThread(tb, t)
    ensures WithoutThread(WithThread(tb, t, p), t) == tb <==> (t !in tb.user && t !in tb.cpu && t !in tb.mem)
  {
    var r := WithoutThread(WithThread(tb, t, p), t);
    assert tb.user[t := p.user(t)] - {t} == tb.user - {t};
    assert tb.cpu[t := p.cpu(t)] - {t} == tb.cpu - {t};
    assert tb.mem[t := p.mem(t)] - {t} == tb.mem - {t};
    if t !in tb.user && t !in tb.cpu && t !in tb.mem {
      assert tb.user - {t} == tb.user;
      assert tb.cpu - {t} == tb.cpu;
      assert tb.mem - {t} == tb.mem;
    }
    if t in tb.user {
      assert t !in r.user;
    }
    if t in tb.cpu {
      assert t !in r.cpu;
    }
    if t in tb.mem {
      assert t !in r.mem;
    }
  }

  /** `addCounters` touches the three maps alike: they keep one key set, which gains `t`. */
  lemma AddKeepsSameKeys(tb: Tables, t: Thread, p: Probe)
    requires SameKeys(tb)
    ensures SameKeys(WithThread(tb, t, p)) && Keys(WithThread(tb, t, p)) == Keys(tb) + {t}
  {
  }

  /** `removeCounters` touches the three maps alike: they keep one key set, which loses `t`. */
  lemma RemoveKeepsSameKeys(tb: Tables, t: Thread)
    requires SameKeys(tb)
    ensures SameKeys(WithoutThread(tb, t)) && Keys(WithoutThread(tb, t)) == Keys(tb) - {t}
  {
  }

  /** `resetAllCounters` changes values only: the three maps keep their one key set. */
  lemma RebaseKeepsSameKeys(tb: Tables, p: Probe)
    requires SameKeys(tb)
    ensures SameKeys(RebasedAll(tb, p)) && Keys(RebasedAll(tb, p)) == Keys(tb)
  {
    assert Rebased(tb.user, p.user).Keys == tb.user.Keys;
    assert Rebased(tb.cpu, p.cpu).Keys == tb.cpu.Keys;
    assert Rebased(tb.mem, p.mem).Keys == tb.mem.Keys;
  }

  /** The three collapses change values only: the three maps keep their one key set. */
  lemma CollapseKeepsSameKeys(tb: Tables, p: Probe)
    requires SameKeys(tb)
    ensures SameKeys(CollapsedAll(tb, p)) && Keys(CollapsedAll(tb, p)) == Keys(tb)
  {
    assert Collapsed(tb.user, p.user).Keys == tb.user.Keys;
    assert Collapsed(tb.cpu, p.cpu).Keys == tb.cpu.Keys;
    assert Collapsed(tb.mem, p.mem).Keys == tb.mem.Keys;
  }

  /** A worker thread the pool creates while the task runs, with the readings at its creation. */
  datatype Admission = Admission(thread: Thread, probe: Probe)

  /**
   * The task handed to `test0`, described by its footprint on the bench:
   * the workers the common pool admits (in order) while it runs, and
   * whether `run()` ends by throwing.
   */
  datatype Task = Task(admissions: seq<Admission>, throws: bool)

  /** The readings `test0` takes: clock values and the extractor passes. */
  datatype Readings = Readings(
    atAdmit: Probe,      // addCounters(Thread.currentThread())
    atReset: Probe,      // resetAllCounters()
    startNanos: Long,    // first System.nanoTime()
    endNanos: Long,      // second System.nanoTime()
    atCollapse: Probe)   // the three getStats calls

  /** What reaches the listener: nothing when the task threw. */
  datatype Outcome =
    | Reported(realTime: Long, userStats: Stats, cpuStats: Stats, memStats: Stats)
    | Threw

  /** The statistics of one metric in a report. */
  function StatsOf(o: Outcome, d: Dim): Stats
    requires o.Reported?
  {
    match d
    case User => o.userStats
    case Cpu => o.cpuStats
    case Mem => o.memStats
  }

  /** The threads of a sequence of admissions. */
  function AdmittedThreads(ws: seq<Admission>): set<Thread>
    decreases |ws|
  {
    if ws == [] then {} else AdmittedThreads(ws[..|ws| - 1]) + {ws[|ws| - 1].thread}
  }

  /** One metric's map after the pool's thread factory has admitted `ws`, in order. */
  function AdmittedTable(m: Counters, ws: seq<Admission>, d: Dim): Counters
    decreases |ws|
  {
    if ws == [] then m
    else
      var last := ws[|ws| - 1];
      AdmittedTable(m, ws[..|ws| - 1], d)[last.thread := Reading(last.probe, d)(last.thread)]
  }

  /** The maps after the pool's thread factory has admitted `ws`, in order. */
  function Admitted(tb: Tables, ws: seq<Admission>): Tables
  {
    Tables(AdmittedTable(tb.user, ws, User), AdmittedTable(tb.cpu, ws, Cpu), AdmittedTable(tb.mem, ws, Mem))
  }

  /** Admitting one more worker is `addCounters` for it. */
  lemma AdmittedStep(tb: Tables, ws: seq<Admission>)
    requires ws != []
    ensures Admitted(tb, ws)
         == WithThread(Admitted(tb, ws[..|ws| - 1]), ws[|ws| - 1].thread, ws[|ws| - 1].probe)
  {
  }

  /**
   * The pool's admissions keep the three maps in step: afterwards they hold
   * the threads registered before plus every admitted worker.
   */
  lemma {:induction false} AdmittedKeepSameKeys(tb: Tables, ws: seq<Admission>)
    requires SameKeys(tb)
    ensures SameKeys(Admitted(tb, ws))
    ensures Keys(Admitted(tb, ws)) == Keys(tb) + AdmittedThreads(ws)
    decreases |ws|
  {
    if ws != [] {
      var init := ws[..|ws| - 1];
      var last := ws[|ws| - 1];
      AdmittedKeepSameKeys(tb, init);
      AdmittedStep(tb, ws);
      AddKeepsSameKeys(Admitted(tb, init), last.thread, last.probe);
    }
  }

  /**
   * The readings that serve as `t`'s baseline after the admissions `ws`
   * on top of a reset with `reset`: the last admission of `t`, if any.
   */
  function Baseline(ws: seq<Admission>, t: Thread, reset: Probe): Probe
    decreases |ws|
  {
    if ws == [] then reset
    else if ws[|ws| - 1].thread == t then ws[|ws| - 1].probe
    else Baseline(ws[..|ws| - 1], t, reset)
  }

  /** Admitting workers adds exactly their threads, and a thread's value is its latest baseline. */
  lemma {:induction false} AdmittedTableValues(m: Counters, ws: seq<Admission>, reset: Probe, d: Dim)
    requires forall t :: t in m ==> m[t] == Reading(reset, d)(t)
    ensures AdmittedTable(m, ws, d).Keys == m.Keys + AdmittedThreads(ws)
    ensures forall t :: t in AdmittedTable(m, ws, d) ==>
              AdmittedTable(m, ws, d)[t] == Reading(Baseline(ws, t, reset), d)(t)
    decreases |ws|
  {
    if ws != [] {
      var init := ws[..|ws| - 1];
      var last := ws[|ws| - 1];
      AdmittedTableValues(m, init, reset, d);
      forall t | t in AdmittedTable(m, ws, d)
        ensures AdmittedTable(m, ws, d)[t] == Reading(Baseline(ws, t, reset), d)(t)
      {
        if t != last.thread {
          assert Baseline(ws, t, reset) == Baseline(init, t, reset);
        }
      }
    }
  }

  /** One metric's map when `getStats` has collapsed it (the caller still registered). */
  function MeasuredTable(m: Counters, caller: Thread, task: Task, rd: Readings, d: Dim): Counters
  {
    var registered := m[caller := Reading(rd.atAdmit, d)(caller)];
    var reset := Rebased(registered, Reading(rd.atReset, d));
    var ran := AdmittedTable(reset, task.admissions, d);
    Collapsed(ran, Reading(rd.atCollapse, d))
  }

  /** The maps when the three `getStats` calls have collapsed them. */
  function Measured(tb: Tables, caller: Thread, task: Task, rd: Readings): Tables
  {
    Tables(MeasuredTable(tb.user, caller, task, rd, User),
           MeasuredTable(tb.cpu, caller, task, rd, Cpu),
           MeasuredTable(tb.mem, caller, task, rd, Mem))
  }

  /** `Measured` is `addCounters`, `resetAllCounters`, the admissions and the three collapses in turn. */
  lemma MeasuredSteps(tb: Tables, caller: Thread, task: Task, rd: Readings)
    ensures Measured(tb, caller, task, rd)
         == CollapsedAll(Admitted(RebasedAll(WithThread(tb, caller, rd.atAdmit), rd.atReset), task.admissions),
                         rd.atCollapse)
  {
    var steps := CollapsedAll(Admitted(RebasedAll(WithThread(tb, caller, rd.atAdmit), rd.atReset), task.admissions),
                              rd.atCollapse);
    assert Measured(tb, caller, task, rd).user == steps.user;
    assert Measured(tb, caller, task, rd).cpu == steps.cpu;
    assert Measured(tb, caller, task, rd).mem == steps.mem;
  }

  /** The maps when `test0` returns or throws: the caller removed by the `finally`. */
  function AfterRun(tb: Tables, caller: Thread, task: Task, rd: Readings): Tables
  {
    WithoutThread(Measured(tb, caller, task, rd), caller)
  }

  /** What `test0` hands to the listener. */
  ghost function RunOutcome(tb: Tables, caller: Thread, task: Task, rd: Readings): Outcome
  {
    if task.throws then Threw
    else
      var m := Measured(tb, caller, task, rd);
      Reported(Sub(rd.endNanos, rd.startNanos), Summary(m.user), Summary(m.cpu), Summary(m.mem))
  }

  /** After the run, every metric's map is its collapsed map without the caller. */
  lemma AfterRunTable(tb: Tables, caller: Thread, task: Task, rd: Readings, d: Dim)
    ensures Table(AfterRun(tb, caller, task, rd), d) == MeasuredTable(Table(tb, d), caller, task, rd, d) - {caller}
  {
    match d
    case User =>
    case Cpu =>
    case Mem =>
  }

  /** A report summarises every metric's collapsed map, the caller included. */
  lemma RunStats(tb: Tables, caller: Thread, task: Task, rd: Readings, d: Dim)
    requires !task.throws
    ensures StatsOf(RunOutcome(tb, caller, task, rd), d) == Summary(MeasuredTable(Table(tb, d), caller, task, rd, d))
  {
    match d
    case User =>
    case Cpu =>
    case Mem =>
  }

  /**
   * What a run consumed of one metric on thread `t`: the reading at collapse
   * minus the thread's baseline, in `long` arithmetic.
   */
  function Consumed(task: Task, rd: Readings, d: Dim, t: Thread): Long
  {
    Sub(Reading(rd.atCollapse, d)(t), Reading(Baseline(task.admissions, t, rd.atReset), d)(t))
  }

  /** Re-basing after `addCounters(caller)`: the registered threads and the caller, each at its reset reading. */
  lemma ResetTable(m: Counters, caller: Thread, rd: Readings, d: Dim)
    ensures var reset := Rebased(m[caller := Reading(rd.atAdmit, d)(caller)], Reading(rd.atReset, d));
      && reset.Keys == m.Keys + {caller}
      && forall t :: t in reset ==> reset[t] == Reading(rd.atReset, d)(t)
  {
  }

  /** The collapsed map holds the registered threads, the caller and the admitted workers. */
  lemma MeasuredTableKeys(m: Counters, caller: Thread, task: Task, rd: Readings, d: Dim)
    ensures MeasuredTable(m, caller, task, rd, d).Keys == m.Keys + {caller} + AdmittedThreads(task.admissions)
  {
    var reset := Rebased(m[caller := Reading(rd.atAdmit, d)(caller)], Reading(rd.atReset, d));
    ResetTable(m, caller, rd, d);
    AdmittedTableValues(reset, task.admissions, rd.atReset, d);
    var ran := AdmittedTable(reset, task.admissions, d);
    assert MeasuredTable(m, caller, task, rd, d) == Collapsed(ran, Reading(rd.atCollapse, d));
  }

  /**
   * Each entry of the collapsed map is the reading at collapse minus the
   * thread's baseline: its admission reading for a worker created during
   * the run and the reset reading for everyone else.
   */
  lemma MeasuredTableValues(m: Counters, caller: Thread, task: Task, rd: Readings, d: Dim)
    ensures var r := MeasuredTable(m, caller, task, rd, d);
      forall t :: t in r ==> r[t] == Consumed(task, rd, d, t)
  {
    var reset := Rebased(m[caller := Reading(rd.atAdmit, d)(caller)], Reading(rd.atReset, d));
    ResetTable(m, caller, rd, d);
    var ran := AdmittedTable(reset, task.admissions, d);
    AdmittedTableValues(reset, task.admissions, rd.atReset, d);
    forall t | t in ran
      ensures Collapsed(ran, Reading(rd.atCollapse, d))[t] == Consumed(task, rd, d, t)
    {
      var base := Reading(Baseline(task.admissions, t, rd.atReset), d)(t);
      assert ran[t] == base;
      assert Collapsed(ran, Reading(rd.atCollapse, d))[t] == Sub(Reading(rd.atCollapse, d)(t), base);
    }
  }

  /** One metric's map after a run: the registered threads and the admitted workers, without the caller. */
  lemma AfterRunTableKeys(tb: Tables, caller: Thread, task: Task, rd: Readings, d: Dim)
    ensures Table(AfterRun(tb, caller, task, rd), d).Keys
         == (Table(tb, d).Keys + AdmittedThreads(task.admissions)) - {caller}
  {
    AfterRunTable(tb, caller, task, rd, d);
    MeasuredTableKeys(Table(tb, d), caller, task, rd, d);
  }

  /**
   * A run keeps the three maps in step; afterwards they hold the threads
   * registered before plus the workers admitted during the run, never the caller.
   */
  lemma RunKeys(tb: Tables, caller: Thread, task: Task, rd: Readings)
    requires SameKeys(tb)
    ensures SameKeys(AfterRun(tb, caller, task, rd))
    ensures Keys(AfterRun(tb, caller, task, rd))
         == (Keys(tb) + AdmittedThreads(task.admissions)) - {caller}
  {
    AfterRunTableKeys(tb, caller, task, rd, User);
    AfterRunTableKeys(tb, caller, task, rd, Cpu);
    AfterRunTableKeys(tb, caller, task, rd, Mem);
  }

  /** Whether the task returns or throws, the caller is in none of the maps afterwards. */
  lemma RunUnregistersCaller(tb: Tables, caller: Thread, task: Task, rd: Readings, d: Dim)
    ensures caller !in Table(AfterRun(tb, caller, task, rd), d)
  {
    AfterRunTable(tb, caller, task, rd, d);
  }

  /** The listener hears of the run exactly when the task returned normally, with the elapsed clock time. */
  lemma RunReportsOnlyOnCompletion(tb: Tables, caller: Thread, task: Task, rd: Readings)
    ensures RunOutcome(tb, caller, task, rd).Reported? <==> !task.throws
    ensures !task.throws ==> RunOutcome(tb, caller, task, rd).realTime == Wrap(rd.endNanos - rd.startNanos)
  {
    SubIsWrap(rd.endNanos, rd.startNanos);
  }

  /**
   * Every entry left after a run holds the run's consumption: the reading at
   * collapse minus the thread's baseline. The maps are collapsed whether or
   * not the task threw.
   */
  lemma RunDeltas(tb: Tables, caller: Thread, task: Task, rd: Readings, d: Dim)
    ensures var r := Table(AfterRun(tb, caller, task, rd), d);
      forall t :: t in r ==> r[t] == Consumed(task, rd, d, t)
  {
    AfterRunTable(tb, caller, task, rd, d);
    MeasuredTableValues(Table(tb, d), caller, task, rd, d);
  }

  /** The summaries count the caller too: they are taken before it is removed. */
  lemma RunCountsCaller(tb: Tables, caller: Thread, task: Task, rd: Readings, d: Dim)
    requires SameKeys(tb) && !task.throws
    ensures StatsOf(RunOutcome(tb, caller, task, rd), d).count
         == |Keys(tb) + AdmittedThreads(task.admissions) + {caller}|
  {
    RunStats(tb, caller, task, rd, d);
    SameKeysTable(tb, d);
    MeasuredSummaryCount(Table(tb, d), caller, task, rd, d);
  }

  /** The summary of one collapsed map counts the registered threads, the caller and the admitted workers. */
  lemma MeasuredSummaryCount(m: Counters, caller: Thread, task: Task, rd: Readings, d: Dim)
    ensures Summary(MeasuredTable(m, caller, task, rd, d)).count == |m.Keys + AdmittedThreads(task.admissions) + {caller}|
  {
    var r := MeasuredTable(m, caller, task, rd, d);
    MeasuredTableKeys(m, caller, task, rd, d);
    SummaryCount(r);
    assert r.Keys == m.Keys + AdmittedThreads(task.admissions) + {caller};
  }

  /**
   * A run in which no worker is created and no metric moves between the
   * reset and the collapse reports zero consumption in every dimension.
   */
  lemma IdleRunReportsZero(tb: Tables, caller: Thread, task: Task, rd: Readings, d: Dim)
    requires task.admissions == [] && !task.throws
    requires rd.atCollapse == rd.atReset
    ensures StatsOf(RunOutcome(tb, caller, task, rd), d).sum == 0
  {
    RunStats(tb, caller, task, rd, d);
    var registered := Table(tb, d)[caller := Reading(rd.atAdmit, d)(caller)];
    RebasedThenCollapsedIsZero(registered, Reading(rd.atReset, d));
    var r := MeasuredTable(Table(tb, d), caller, task, rd, d);
    assert r == Collapsed(Rebased(registered, Reading(rd.atReset, d)), Reading(rd.atReset, d));
    SumOverZero(r, r.Keys);
  }

  /** One call of `test` in a sequence of benchmark runs. */
  datatype Run = Run(caller: Thread, task: Task, rd: Readings)

  /** The maps after the runs `runs`, one after the other. */
  function AfterRuns(tb: Tables, runs: seq<Run>): Tables
    decreases |runs|
  {
    if runs == [] then tb
    else
      var last := runs[|runs| - 1];
      AfterRun(AfterRuns(tb, runs[..|runs| - 1]), last.caller, last.task, last.rd)
  }

  /**
   * Across any sequence of runs, a registered thread that never calls `test`
   * (a pool worker) stays registered, and the caller of the latest run is gone.
   */
  lemma {:induction false} WorkersPersistCallersDoNot(tb: Tables, runs: seq<Run>, t: Thread)
    requires SameKeys(tb) && t in Keys(tb)
    requires forall i :: 0 <= i < |runs| ==> runs[i].caller != t
    ensures SameKeys(AfterRuns(tb, runs))
    ensures t in Keys(AfterRuns(tb, runs))
    ensures runs != [] ==> runs[|runs| - 1].caller !in Keys(AfterRuns(tb, runs))
    decreases |runs|
  {
    if runs != [] {
      var init := runs[..|runs| - 1];
      var last := runs[|runs| - 1];
      WorkersPersistCallersDoNot(tb, init, t);
      RunKeys(AfterRuns(tb, init), last.caller, last.task, last.rd);
    }
  }
}
